=== FILE: README.md ===
# A verified model of downloader.rb

`downloader.rb` turns the tracks a Last.fm user has "loved" into torrents queued in a
uTorrent WebUI. One run goes through four stages:

1. It computes a cutoff time from `cron_interval`.
2. It walks the loved-tracks feed, newest first, and stops at the first entry below the
   cutoff. It looks up the album of every entry before that one and collects an album hash
   `{artist, title}` for each entry that has an album (`albums_to_get`).
3. When there are albums, it logs in to the tracker once and searches for each album. It
   keeps the first `DL` link whose `href` starts with `torrents.php?action=download`, stores
   `http://what.cd/` + that `href` in the album hash, and pushes the hash onto
   `torrents_to_get`.
4. When there are torrents, it logs in to the download client once and fetches each
   torrent. It takes the file name from the first `Content-Disposition` header line and,
   when there is a name, uploads the file and pushes the torrent onto
   `successful_additions`. In verbose mode it ends by printing the count and the
   `artist - title` of every addition.

The model keeps the script's shape:

- The four loops are methods with `while`/`for` loops and `break`s, proved against
  recursive specification functions. They are the feed scan, the album searches, the
  header-line scan and the torrent uploads.
- The album hash is a class, `Records.AlbumHash`. The tracker stage writes its `url` in
  place, and the same objects sit in all three arrays.
- The three arrays are sequences that the methods extend.
- Every remote reply is a parameter:
  - the decoded feed, absent or present;
  - a function from `(artist, track)` to the decoded track-info reply;
  - a function from the search form to the links of the results page;
  - a function from a torrent URL to the fetch outcome and raw header string.
- Each stage also returns the list of remote requests it makes, in order. This is how the
  model states which stages run, how many logins happen and which feed entries are never
  looked up.

The header parsing follows Ruby's semantics:

- `split(/\r\n/)` drops trailing empty fields.
- `^` and `$` are line anchors and `.` does not match a newline.
- In `gsub(/^.+filename="(.+)"$/, "\\1")` the greedy `.+` settles on the last `filename="`
  that still leaves a non-empty capture before a closing quote at the end of the line.

A torrent is still uploaded when the pattern does not match its `Content-Disposition`
line. The pattern matches exactly when both of these hold (`Headers.MatchesWithMarkerAt`):

- the line ends in a quote;
- some `filename="` after the first character is followed by at least one character
  before that quote.

Some lines that do not match:

- another parameter or a space follows the value, as in `filename="a.torrent"; size=5`;
- the closing quote is missing, as in `filename="abc`;
- there is no `filename="` at all;
- the only value is empty, as in `filename=""`.

An empty value after an earlier one does match. The greedy `.+` then backtracks to the
earlier marker, so the line `Content-Disposition: attachment; filename="a"; filename=""`
yields the name `a"; filename="` (`Headers.GsubBacktracksToEarlierMarker`).

The substitution leaves an unmatched line unchanged, so the whole header line becomes the
file name (`Headers.GsubKeepsNonMatchingLine`, `Headers.GsubKeepsUnmatchedLine`). The name
is missing only when no header line starts with `Content-Disposition`
(`Headers.TorrentNameAbsent`). Besides that case, a torrent is skipped only when its fetch
fails.

Files:

| file | module | contents |
|---|---|---|
| `wrappers.dfy` | `Wrappers` | the `Option` type |
| `sequences.dfy` | `Sequences` | subsequences, distinctness, counting |
| `text.dfy` | `Text` | Ruby line anchors, `split` and its inverse |
| `records.dfy` | `Records` | the feed entry, the remote replies, the request log, the album hash |
| `loved_tracks.dfy` | `LovedTracks` | the cutoff and the loved-track scan |
| `tracker.dfy` | `Tracker` | link selection and the search loop |
| `headers.dfy` | `Headers` | the header-line scan and the filename substitution |
| `download_client.dfy` | `DownloadClient` | the upload loop |
| `downloader.dfy` | `Downloader` | stage gating, login counts, the verbose report, the whole run |

## Model

| member | source | states |
|---|---|---|
| Records.AlbumHash.constructor | downloader.rb:50-52 | a new album hash carries the album's artist and title and no URL yet |
| LovedTracks.CutoffTime | downloader.rb:25-30 | with `cron_interval` 0 every entry with a non-negative timestamp is kept; otherwise an entry is kept exactly when it was loved at most `cron_interval` minutes before `now` (an entry exactly at the cutoff is kept) |
| LovedTracks.LovedSinceIsKeptPrefix | downloader.rb:36-38 | the scanned entries are a prefix of the feed, all at or above the cutoff, and the scan stops at the feed's end or at the first entry below the cutoff |
| LovedTracks.LovedSinceUnique | downloader.rb:36-38 | that prefix is unique: any prefix with those properties is the scanned one (a take-while, not a filter) |
| LovedTracks.LovedSinceIgnoresRest | downloader.rb:37-38 | replacing everything after the first entry below the cutoff, even with newer entries, leaves the scan unchanged |
| LovedTracks.NoCutoffScansWholeFeed | downloader.rb:25-27 | without a cron interval a feed of non-negative timestamps is scanned to its end |
| LovedTracks.ResolveAlbumsAppend | downloader.rb:46-59 | album resolution works entry by entry and in order: resolving a concatenation concatenates the results, so nothing is reordered, merged or deduplicated |
| LovedTracks.ResolveAlbumsMembership | downloader.rb:46-53 | an album is collected exactly when some scanned entry's info has both a track and that album |
| LovedTracks.ScanLovedTracks | downloader.rb:35-60 | the loop's `(artist, title)` list is the resolution of exactly the scanned prefix; it looks up exactly the scanned entries in feed order; every album hash is new, distinct from the others and has no URL |
| Tracker.DownloadLinks | downloader.rb:90 | the download links are an order-preserving subsequence of the page's links, namely those with text `DL` and an `href` starting with `torrents.php?action=download` |
| Tracker.DownloadLinksHead | downloader.rb:90-92 | the first download link on the page heads the filtered list |
| Tracker.DownloadLinksFirst | downloader.rb:90-92 | the head of a non-empty filtered list is a download link with no download link before it |
| Tracker.TorrentUrlIsFirstMatch | downloader.rb:90-92 | there is no URL exactly when the page has no download link; the URL is `http://what.cd/` + `href` exactly for the page's first download link |
| Tracker.Selected | downloader.rb:81-97 | the albums that get a torrent are an order-preserving subsequence of the albums |
| Tracker.SelectedMembership | downloader.rb:91-96 | an album is in `torrents_to_get` exactly when it is one of the albums and its search yields a URL |
| Tracker.SelectedAppend | downloader.rb:81-97 | selection is decided album by album: selecting from a concatenation concatenates the selections |
| Tracker.SearchAlbum | downloader.rb:82-96 | one iteration submits the album's artist, title, encoding and `snatched` ordering, reports whether a URL was found and stores exactly that URL in the album hash, leaving it unchanged otherwise |
| Tracker.SelectTorrents | downloader.rb:81-97 | the loop's `torrents_to_get` is `Selected`; it makes one search per album, in order; every album with a URL now carries it in its hash and the others keep their old value |
| Text.JoinSplit | downloader.rb:111 | splitting on the separator loses nothing: joining the fields with it gives back the header string; `Text.SplitFieldsFree` adds that no field keeps a separator inside it |
| Text.SplitFieldsFree | downloader.rb:111 | the split cuts at every occurrence: no field contains the separator |
| Headers.HeaderLinesAreLines | downloader.rb:111 | the header lines are a prefix of the raw split and none contains `\r\n`, so each is a single header line and not the whole header |
| Text.DropTrailingEmpty | downloader.rb:111 | Ruby's `split` keeps a prefix of the fields, drops only empty ones and never ends in an empty field |
| Headers.FirstDispositionIndex | downloader.rb:111-115 | the line chosen is the first one starting with `Content-Disposition`, and there is none exactly when no line starts with it |
| Headers.LastMarkerAt | downloader.rb:113 | the greedy `.+` settles on the largest `filename="` position that leaves a non-empty capture and a closing quote at the line's end |
| Headers.RewriteSegment | downloader.rb:113 | the substitution never lengthens a line and leaves a line that does not end in a quote unchanged |
| Headers.GsubSingleLine | downloader.rb:113 | on a line without a newline the substitution is the rewrite of that one line |
| Headers.GsubCapturesFilename | downloader.rb:113 | a line ending in `filename="X"`, with X free of quotes, yields exactly X |
| Headers.GsubKeepsUnmatchedLine | downloader.rb:113 | a line that does not end in a quote is left whole, so the whole line becomes the name |
| Headers.GsubKeepsNonMatchingLine | downloader.rb:113 | a line that the pattern matches at no marker position is left whole, whether or not it ends in a quote (for example `name="x"` or an empty `filename=""`), so the whole line becomes the name |
| Headers.NoMarkerAfterValue | downloader.rb:113 | after a quote-free, `=`-free value and its closing quote, no later `filename="` can start a match when every later quote is in the last two places of the line |
| Headers.GsubBacktracksToEarlierMarker | downloader.rb:113 | a line ending in `filename="X"; filename=""` (X without quotes or `=`) yields `X"; filename="`: the empty value does not match, and the capture runs from the earlier marker to the final quote |
| Headers.TorrentNameAbsent | downloader.rb:109-117 | the name is absent exactly when no field of the raw split starts with `Content-Disposition`; dropping trailing empty fields does not change this |
| Headers.TorrentNameFromFirstDisposition | downloader.rb:111-115 | when the first `Content-Disposition` field of the header is `line`, the name is the substitution applied to `line` |
| Headers.FindTorrentName | downloader.rb:109-116 | the loop with its `break` returns `TorrentName`, and returns nothing exactly when no header line starts with `Content-Disposition` |
| DownloadClient.UrlsOf | downloader.rb:107 | the URLs fetched are, position by position, the ones stored in the album hashes |
| DownloadClient.SubmittedIsSubsequence | downloader.rb:106-129 | `successful_additions` is an order-preserving subsequence of `torrents_to_get` |
| DownloadClient.SubmittedMembership | downloader.rb:106-129 | a torrent is added exactly when its fetch succeeds and a file name is resolved from its headers |
| DownloadClient.SubmittedAppend | downloader.rb:106-134 | additions are decided torrent by torrent: processing a concatenation concatenates the additions |
| DownloadClient.SubmitTorrents | downloader.rb:106-134 | the loop's `successful_additions` is `Submitted`; it fetches every torrent in order and uploads exactly those with a name |
| Downloader.TrackerRequests | downloader.rb:67-98 | the tracker stage logs in once when there are albums and not at all otherwise, and never logs in to the download client |
| Downloader.ClientRequests | downloader.rb:102-135 | the upload stage logs in once when there are torrents and not at all otherwise, and never logs in to the tracker |
| Downloader.DownloadAlbums | downloader.rb:67-136 | the two stages run only on non-empty input; every torrent carries its chosen URL; every album without a torrent keeps the `url` it had; the additions are a subsequence of the torrents and of the albums |
| Downloader.Run | downloader.rb:20-143 | the run exits right after the feed request exactly when the feed is absent or empty, producing nothing; otherwise each stage equals its specification; a returned album hash without a torrent still has no `url`; the tracker and the client are each logged in to at most once, and only when their stage has input; the verbose report gives the number of additions and their `(artist, title)` in order |

## Left out

- Loading `config.yml` and exiting when it fails (downloader.rb:13-18): the configuration is a `Config` value. It holds the four settings that decide what the run does: `last_user`, `cron_interval`, `verbose` and `what_encoding`. The API key (downloader.rb:32, 42) is left out of the two Last.fm requests the model records, `LovedTracksRequest` and `TrackInfoRequest`. The tracker and download-client credentials and `utorrent_url` only go into the two logins, which the model records without contents. The tracker address `http://what.cd/` is a literal in the script, not a setting.
- The HTTP requests and XML decoding (downloader.rb:32-34, 42-44): the decoded feed and a track-info function are parameters. A feed whose `lovedtracks` element has no `track` list, or an entry without a date, makes the script raise. Such a feed is not representable in the model.
- The tracker session (downloader.rb:68-78, 82-87): browsing and form handling are not modelled. The model records one `TrackerLogin` request for four steps:
  - the GET of `http://what.cd/` (69);
  - the click on Login (71);
  - the login-form submit with the credentials (73-76);
  - the click to `torrents.php` (78).
  Each search-form submit (82-87) is one `SearchRequest`, and the links of its results page are a parameter. Failures and exceptions of these steps are not modelled.
- The download-client session (downloader.rb:104-105): the authentication and the GET of the WebUI page are recorded together as one `ClientLogin` request.
- The torrent fetch (downloader.rb:107-108): it is a function from URL to "failed" or "fetched with this header string". Transport exceptions are not modelled.
- A failing file write or upload (downloader.rb:119-125): these steps end the whole run. `open` can raise, `form_with` can find no `add-file` form, and `submit` can raise on an HTTP error; nothing rescues them. The model treats every upload as successful. So `DownloadClient.SubmittedMembership` and `DownloadClient.SubmitTorrents` describe only runs in which no upload raises.
- Writing, uploading and deleting the torrent file (downloader.rb:119-127): the upload is recorded as a request under the file name. The file I/O is not modelled. The delete is not in an `ensure`, so no claim is made that the file is always removed.
- `Time.new` and its UTC conversion (downloader.rb:29): the current time is the integer parameter `now`. A non-integer `cron_interval` is not modelled; it is an integer.
- The console messages (downloader.rb:16, 55, 58, 62, 95, 131, 140-142): the verbose end report is modelled as the `Report` value; the notices and warnings are not. The warning on line 131 prints the Last.fm `url` variable instead of the torrent's URL, which affects only the console.
- Remote replies are modelled as functions, so the same request always gets the same reply within one run.
- Tracker.SelectTorrents: requires the album hashes to be distinct objects. The scan always produces distinct, newly created hashes (`LovedTracks.ScanLovedTracks`), so the model does not cover a list that holds one hash twice.

=== FILE: download_client.dfy ===
/** The third stage: fetch each torrent, recover its filename and upload it to the download client. */
module DownloadClient {
  import opened Wrappers
  import opened Sequences
  import opened Records
  import opened Headers

  /** What happens to one torrent: the fetch fails, no filename is found, or it is uploaded under a name. */
  datatype Attempt = FetchSkipped | NameUnresolved | Uploaded(fileName: string)

  function AttemptFor(url: string, fetch: string -> FetchReply): (attempt: Attempt)
  {
    match fetch(url)
    case FetchFailed => FetchSkipped
    case Fetched(headerStr) =>
      match TorrentName(headerStr)
      case None => NameUnresolved
      case Some(name) => Uploaded(name)
  }

  /** Every torrent reaching this stage carries a URL. */
  ghost predicate AllHaveUrls(torrents: seq<AlbumHash>)
    reads torrents
  {
    forall i :: 0 <= i < |torrents| ==> torrents[i].url.Some?
  }

  /** The URL stored in each torrent's album hash, in order. */
  function UrlsOf(torrents: seq<AlbumHash>): (urls: seq<string>)
    reads torrents
    requires AllHaveUrls(torrents)
    ensures |urls| == |torrents| && forall i :: 0 <= i < |torrents| ==> Some(urls[i]) == torrents[i].url
  {
    if torrents == [] then [] else [torrents[0].url.value] + UrlsOf(torrents[1..])
  }

  /** The torrents that end up in `successful_additions`, in their original order; `urls[i]` is the URL of `torrents[i]`. */
  function Submitted(torrents: seq<AlbumHash>, urls: seq<string>, fetch: string -> FetchReply): (added: seq<AlbumHash>)
    requires |urls| == |torrents|
  {
    if torrents == [] then []
    else if AttemptFor(urls[0], fetch).Uploaded? then [torrents[0]] + Submitted(torrents[1..], urls[1..], fetch)
    else Submitted(torrents[1..], urls[1..], fetch)
  }

  /** `successful_additions` keeps the order of `torrents_to_get` and only drops torrents. */
  lemma {:induction false} SubmittedIsSubsequence(torrents: seq<AlbumHash>, urls: seq<string>, fetch: string -> FetchReply)
    requires |urls| == |torrents|
    ensures IsSubsequence(Submitted(torrents, urls, fetch), torrents)
  {
    if torrents != [] {
      SubmittedIsSubsequence(torrents[1..], urls[1..], fetch);
      var rest := Submitted(torrents[1..], urls[1..], fetch);
      if AttemptFor(urls[0], fetch).Uploaded? {
        assert ([torrents[0]] + rest)[1..] == rest;
      }
    }
  }

  /** A torrent is added exactly when its fetch succeeds and its filename is resolved. */
  lemma {:induction false} SubmittedMembership(torrents: seq<AlbumHash>, urls: seq<string>, fetch: string -> FetchReply, torrent: AlbumHash)
    requires |urls| == |torrents|
    ensures torrent in Submitted(torrents, urls, fetch) <==>
            exists i :: 0 <= i < |torrents| && torrents[i] == torrent && AttemptFor(urls[i], fetch).Uploaded?
  {
    if torrents != [] {
      SubmittedMembership(torrents[1..], urls[1..], fetch, torrent);
      if exists i :: 0 <= i < |torrents| && torrents[i] == torrent && AttemptFor(urls[i], fetch).Uploaded? {
        var i :| 0 <= i < |torrents| && torrents[i] == torrent && AttemptFor(urls[i], fetch).Uploaded?;
        if i > 0 {
          assert torrents[1..][i - 1] == torrents[i] && urls[1..][i - 1] == urls[i];
        }
      }
      if torrent in Submitted(torrents[1..], urls[1..], fetch) {
        var i :| 0 <= i < |torrents[1..]| && torrents[1..][i] == torrent && AttemptFor(urls[1..][i], fetch).Uploaded?;
        assert torrents[i + 1] == torrents[1..][i] && urls[i + 1] == urls[1..][i];
      }
    }
  }

  /** The requests one torrent causes: its fetch, then its upload if it is uploaded. */
  function AttemptRequests(url: string, fetch: string -> FetchReply): (requests: seq<Request>)
  {
    [TorrentRequest(url)] + match AttemptFor(url, fetch)
      case Uploaded(name) => [UploadRequest(name)]
      case _ => []
  }

  /** The fetches and uploads of the whole stage, in order. */
  function SubmitRequests(urls: seq<string>, fetch: string -> FetchReply): (requests: seq<Request>)
    ensures forall r :: r in requests ==> r.TorrentRequest? || r.UploadRequest?
  {
    if urls == [] then []
    else AttemptRequests(urls[0], fetch) + SubmitRequests(urls[1..], fetch)
  }

  lemma {:induction false} SubmittedAppend(a: seq<AlbumHash>, b: seq<AlbumHash>, ua: seq<string>, ub: seq<string>, fetch: string -> FetchReply)
    requires |ua| == |a| && |ub| == |b|
    ensures Submitted(a + b, ua + ub, fetch) == Submitted(a, ua, fetch) + Submitted(b, ub, fetch)
  {
    if a == [] {
      assert a + b == b && ua + ub == ub;
    } else {
      assert (a + b)[0] == a[0] && (ua + ub)[0] == ua[0];
      assert (a + b)[1..] == a[1..] + b && (ua + ub)[1..] == ua[1..] + ub;
      SubmittedAppend(a[1..], b, ua[1..], ub, fetch);
    }
  }

  lemma {:induction false} SubmitRequestsAppend(ua: seq<string>, ub: seq<string>, fetch: string -> FetchReply)
    ensures SubmitRequests(ua + ub, fetch) == SubmitRequests(ua, fetch) + SubmitRequests(ub, fetch)
  {
    if ua == [] {
      assert ua + ub == ub;
    } else {
      assert (ua + ub)[0] == ua[0];
      assert (ua + ub)[1..] == ua[1..] + ub;
      SubmitRequestsAppend(ua[1..], ub, fetch);
    }
  }

  /** Processing one more torrent appends its requests, and the torrent itself when it is uploaded. */
  lemma SubmitSnoc(torrents: seq<AlbumHash>, urls: seq<string>, torrent: AlbumHash, url: string, fetch: string -> FetchReply)
    requires |urls| == |torrents|
    ensures Submitted(torrents + [torrent], urls + [url], fetch) ==
            Submitted(torrents, urls, fetch) + if AttemptFor(url, fetch).Uploaded? then [torrent] else []
    ensures SubmitRequests(urls + [url], fetch) == SubmitRequests(urls, fetch) + AttemptRequests(url, fetch)
  {
    SubmittedAppend(torrents, [torrent], urls, [url], fetch);
    SubmitRequestsAppend(urls, [url], fetch);
    assert SubmitRequests([url], fetch) == AttemptRequests(url, fetch) + SubmitRequests([], fetch);
  }

  /** The same step on the prefixes of the stage's input that the upload loop has processed. */
  lemma SubmitStep(torrents: seq<AlbumHash>, urls: seq<string>, i: nat, fetch: string -> FetchReply)
    requires i < |torrents| == |urls|
    ensures Submitted(torrents[..i + 1], urls[..i + 1], fetch) ==
            Submitted(torrents[..i], urls[..i], fetch) + if AttemptFor(urls[i], fetch).Uploaded? then [torrents[i]] else []
    ensures SubmitRequests(urls[..i + 1], fetch) == SubmitRequests(urls[..i], fetch) + AttemptRequests(urls[i], fetch)
  {
    assert torrents[..i + 1] == torrents[..i] + [torrents[i]];
    assert urls[..i + 1] == urls[..i] + [urls[i]];
    SubmitSnoc(torrents[..i], urls[..i], torrents[i], urls[i], fetch);
  }

  /**
   * The upload loop: fetch each torrent; on success look for its filename and, when one
   * is found, upload it and push the torrent onto `successful_additions`.
   */
  method SubmitTorrents(torrentsToGet: seq<AlbumHash>, fetch: string -> FetchReply)
    returns (successfulAdditions: seq<AlbumHash>, requests: seq<Request>)
    requires AllHaveUrls(torrentsToGet)
    ensures successfulAdditions == Submitted(torrentsToGet, UrlsOf(torrentsToGet), fetch)
    ensures requests == SubmitRequests(UrlsOf(torrentsToGet), fetch)
  {
    ghost var urls := UrlsOf(torrentsToGet);
    successfulAdditions, requests := [], [];
    for i := 0 to |torrentsToGet|
      invariant successfulAdditions == Submitted(torrentsToGet[..i], urls[..i], fetch)
      invariant requests == SubmitRequests(urls[..i], fetch)
    {
      var torrent := torrentsToGet[i];
      var url := torrent.url.value;
      assert url == urls[i];
      SubmitStep(torrentsToGet, urls, i, fetch);
      var attempt := [TorrentRequest(url)];
      match fetch(url) {
        case FetchFailed =>
        case Fetched(headerStr) =>
          var torrentName := FindTorrentName(headerStr);
          if torrentName.Some? {
            attempt := attempt + [UploadRequest(torrentName.value)];
            successfulAdditions := successfulAdditions + [torrent];
          }
      }
      requests := requests + attempt;
    }
    assert torrentsToGet[..|torrentsToGet|] == torrentsToGet;
    assert urls[..|urls|] == urls;
  }
}

=== FILE: downloader.dfy ===
/**
 * One run of downloader.rb: compute the cutoff, scan the loved tracks, search the tracker
 * for each album, upload each torrent, and report the additions. Remote replies are
 * parameters: the decoded feed, and functions giving the track-info reply, the results
 * page links and the torrent fetch outcome for each request.
 */
module Downloader {
  import opened Wrappers
  import opened Sequences
  import opened Records
  import opened LovedTracks
  import opened Tracker
  import opened DownloadClient

  /**
   * The configuration values that decide what the run does. The API key, the tracker and
   * download-client credentials and the download-client URL only go into requests whose
   * contents are not modelled, so they are not fields here.
   */
  datatype Config = Config(lastUser: string, cronInterval: int, verbose: bool, whatEncoding: string)

  /** The verbose end-of-run report: the number of additions and the `(artist, title)` of each. */
  datatype Report = Report(count: nat, listing: seq<AlbumId>)

  /** The tracker stage's requests: none without albums, else one login and then one search per album. */
  function TrackerRequests(albums: seq<AlbumHash>, encoding: string): (requests: seq<Request>)
    ensures Count(requests, TrackerLogin) == (if albums == [] then 0 else 1)
    ensures Count(requests, ClientLogin) == 0
  {
    if albums == [] then []
    else
      var searches := SearchRequests(albums, encoding);
      assert TrackerLogin !in searches && ClientLogin !in searches;
      CountAppend([TrackerLogin], searches, TrackerLogin);
      CountAppend([TrackerLogin], searches, ClientLogin);
      [TrackerLogin] + searches
  }

  /** The download-client stage's requests: none without torrents, else one login and then the fetches and uploads. */
  function ClientRequests(urls: seq<string>, fetch: string -> FetchReply): (requests: seq<Request>)
    ensures Count(requests, ClientLogin) == (if urls == [] then 0 else 1)
    ensures Count(requests, TrackerLogin) == 0
  {
    if urls == [] then []
    else
      var transfers := SubmitRequests(urls, fetch);
      assert TrackerLogin !in transfers && ClientLogin !in transfers;
      CountAppend([ClientLogin], transfers, TrackerLogin);
      CountAppend([ClientLogin], transfers, ClientLogin);
      [ClientLogin] + transfers
  }

  /**
   * The feed request and the track-info lookups carry no login, so each login in the
   * whole log is counted in its own stage.
   */
  lemma LoginCounts(feedRequest: Request, lookups: seq<Request>, tracker: seq<Request>, client: seq<Request>)
    requires feedRequest.LovedTracksRequest?
    requires forall r :: r in lookups ==> r.TrackInfoRequest?
    ensures Count([feedRequest] + lookups + tracker + client, TrackerLogin) == Count(tracker, TrackerLogin) + Count(client, TrackerLogin)
    ensures Count([feedRequest] + lookups + tracker + client, ClientLogin) == Count(tracker, ClientLogin) + Count(client, ClientLogin)
  {
    var head := [feedRequest] + lookups;
    assert TrackerLogin !in head && ClientLogin !in head;
    CountAppend(head, tracker, TrackerLogin);
    CountAppend(head, tracker, ClientLogin);
    CountAppend(head + tracker, client, TrackerLogin);
    CountAppend(head + tracker, client, ClientLogin);
  }

  /**
   * The tracker and download-client stages for a list of album hashes: each stage runs
   * only when its input is non-empty. The torrents are the albums with a download link,
   * each carrying its URL, and the additions are the torrents whose upload went through.
   */
  method DownloadAlbums(albumsToGet: seq<AlbumHash>, config: Config, search: Query -> seq<Link>,
                        fetch: string -> FetchReply)
    returns (torrentsToGet: seq<AlbumHash>, successfulAdditions: seq<AlbumHash>,
             trackerRequests: seq<Request>, clientRequests: seq<Request>)
    requires Distinct(albumsToGet)
    modifies albumsToGet
    ensures torrentsToGet == Selected(albumsToGet, config.whatEncoding, search)
    ensures forall t :: t in torrentsToGet ==> t.url.Some? && t.url == ChosenUrl(t, config.whatEncoding, search)
    ensures forall a :: a in albumsToGet && a !in torrentsToGet ==> a.url == old(a.url)
    ensures AllHaveUrls(torrentsToGet)
    ensures successfulAdditions == Submitted(torrentsToGet, UrlsOf(torrentsToGet), fetch)
    ensures IsSubsequence(successfulAdditions, torrentsToGet) && IsSubsequence(torrentsToGet, albumsToGet)
    ensures IsSubsequence(successfulAdditions, albumsToGet)
    ensures trackerRequests == TrackerRequests(albumsToGet, config.whatEncoding)
    ensures clientRequests == ClientRequests(UrlsOf(torrentsToGet), fetch)
  {
    torrentsToGet, successfulAdditions := [], [];
    trackerRequests, clientRequests := [], [];
    if albumsToGet != [] {
      var searches;
      torrentsToGet, searches := SelectTorrents(albumsToGet, config.whatEncoding, search);
      trackerRequests := [TrackerLogin] + searches;
    }
    forall t | t in torrentsToGet
      ensures t.url.Some? && t.url == ChosenUrl(t, config.whatEncoding, search)
    {
      SelectedMembership(albumsToGet, config.whatEncoding, search, t);
    }
    forall a | a in albumsToGet && a !in torrentsToGet
      ensures a.url == old(a.url)
    {
      SelectedMembership(albumsToGet, config.whatEncoding, search, a);
      var k :| 0 <= k < |albumsToGet| && albumsToGet[k] == a;
    }
    if torrentsToGet != [] {
      var transfers;
      successfulAdditions, transfers := SubmitTorrents(torrentsToGet, fetch);
      clientRequests := [ClientLogin] + transfers;
    }
    SubmittedIsSubsequence(torrentsToGet, UrlsOf(torrentsToGet), fetch);
    SubsequenceTransitive(successfulAdditions, torrentsToGet, albumsToGet);
  }

  /**
   * What a run over a non-empty feed produces: the album hashes are the resolution of the
   * scanned prefix; the torrents are the albums with a download link and each carries that
   * link's URL; the additions are the torrents whose upload went through; and the request
   * log is the feed request followed by the lookups and the two stages' requests.
   */
  ghost predicate FollowsStages(config: Config, now: int, feed: seq<LovedTrack>,
                                trackInfo: (string, string) -> TrackInfoReply, search: Query -> seq<Link>,
                                fetch: string -> FetchReply, albumsToGet: seq<AlbumHash>,
                                torrentsToGet: seq<AlbumHash>, successfulAdditions: seq<AlbumHash>,
                                requests: seq<Request>)
    reads torrentsToGet
  {
    var scanned := LovedSince(feed, CutoffTime(config.cronInterval, now));
    && Ids(albumsToGet) == ResolveAlbums(scanned, trackInfo)
    && torrentsToGet == Selected(albumsToGet, config.whatEncoding, search)
    && (forall t :: t in torrentsToGet ==> t.url.Some? && t.url == ChosenUrl(t, config.whatEncoding, search))
    && AllHaveUrls(torrentsToGet)
    && successfulAdditions == Submitted(torrentsToGet, UrlsOf(torrentsToGet), fetch)
    && requests == [LovedTracksRequest(config.lastUser)] + TrackInfoRequests(scanned) +
                   TrackerRequests(albumsToGet, config.whatEncoding) + ClientRequests(UrlsOf(torrentsToGet), fetch)
  }

  /**
   * The whole script. The run exits right after the feed request when the feed is
   * missing or empty. Otherwise each stage runs only on a non-empty input, logs in once,
   * and keeps an order-preserving selection of its input.
   */
  method Run(config: Config, now: int, lovedTracks: Option<seq<LovedTrack>>,
             trackInfo: (string, string) -> TrackInfoReply, search: Query -> seq<Link>,
             fetch: string -> FetchReply)
    returns (exited: bool, albumsToGet: seq<AlbumHash>, torrentsToGet: seq<AlbumHash>,
             successfulAdditions: seq<AlbumHash>, requests: seq<Request>, report: Option<Report>)
    ensures exited <==> lovedTracks.None? || lovedTracks.value == []
    ensures exited ==> albumsToGet == [] && torrentsToGet == [] && successfulAdditions == [] &&
                       report == None && requests == [LovedTracksRequest(config.lastUser)]
    ensures !exited ==> FollowsStages(config, now, lovedTracks.value, trackInfo, search, fetch,
                                      albumsToGet, torrentsToGet, successfulAdditions, requests)
    ensures IsSubsequence(successfulAdditions, albumsToGet)
    ensures forall a :: a in albumsToGet && a !in torrentsToGet ==> a.url == None
    ensures Count(requests, TrackerLogin) == (if albumsToGet == [] then 0 else 1)
    ensures Count(requests, ClientLogin) == (if torrentsToGet == [] then 0 else 1)
    ensures report == if config.verbose && !exited then Some(Report(|successfulAdditions|, Ids(successfulAdditions))) else None
  {
    var cutoffTime := CutoffTime(config.cronInterval, now);
    var feedRequest := LovedTracksRequest(config.lastUser);
    albumsToGet, torrentsToGet, successfulAdditions, report := [], [], [], None;
    if lovedTracks.None? || lovedTracks.value == [] {
      exited, requests := true, [feedRequest];
      return;
    }
    exited := false;

    var lookups, trackerRequests, clientRequests;
    albumsToGet, lookups := ScanLovedTracks(lovedTracks.value, cutoffTime, trackInfo);
    assert forall a :: a in albumsToGet ==> a.url == None;
    torrentsToGet, successfulAdditions, trackerRequests, clientRequests :=
      DownloadAlbums(albumsToGet, config, search, fetch);
    requests := [feedRequest] + lookups + trackerRequests + clientRequests;

    if config.verbose {
      report := Some(Report(|successfulAdditions|, Ids(successfulAdditions)));
    }
    LoginCounts(feedRequest, lookups, trackerRequests, clientRequests);
  }
}

=== FILE: headers.dfy ===
/**
 * The torrent filename taken from the fetch's raw header string: the first header line
 * starting with `Content-Disposition`, rewritten by `gsub(/^.+filename="(.+)"$/, "\\1")`.
 */
module Headers {
  import opened Wrappers
  import opened Text

  const DispositionPrefix: string := "Content-Disposition"
  const FilenameMarker: string := "filename=\""

  /** `/^Content-Disposition/.match(line)`. */
  predicate IsDispositionLine(line: string)
  {
    MatchesAtLineStart(line, DispositionPrefix)
  }

  /** `header_str.split(/\r\n/)`. */
  function HeaderLines(headerStr: string): (lines: seq<string>)
  {
    RubySplit(headerStr, "\r\n")
  }

  /** Every header line is one line of the raw header: none contains `\r\n`, and they are kept in order. */
  lemma HeaderLinesAreLines(headerStr: string)
    ensures HeaderLines(headerStr) <= Split(headerStr, "\r\n")
    ensures forall line :: line in HeaderLines(headerStr) ==> SeparatorFree(line, "\r\n")
  {
    var fields := Split(headerStr, "\r\n");
    SplitFieldsFree(headerStr, "\r\n");
    forall line | line in HeaderLines(headerStr)
      ensures line in fields
    {
      var j :| 0 <= j < |HeaderLines(headerStr)| && HeaderLines(headerStr)[j] == line;
      assert fields[j] == line;
    }
  }

  /** The index of the first `Content-Disposition` line, if there is one. */
  function FirstDispositionIndex(lines: seq<string>): (r: Option<nat>)
    ensures r.None? <==> forall j :: 0 <= j < |lines| ==> !IsDispositionLine(lines[j])
    ensures r.Some? ==> r.value < |lines| && IsDispositionLine(lines[r.value]) &&
                        forall j :: 0 <= j < r.value ==> !IsDispositionLine(lines[j])
  {
    if lines == [] then None
    else if IsDispositionLine(lines[0]) then Some(0)
    else match FirstDispositionIndex(lines[1..])
      case None => None
      case Some(k) => Some(k + 1)
  }

  /**
   * On a line without newlines, `/^.+filename="(.+)"$/` matches with its greedy `.+`
   * ending just before index `k`: at least one character before the marker, at least
   * one captured character after it, and a closing quote as the last character.
   */
  predicate MatchesWithMarkerAt(seg: string, k: int)
  {
    1 <= k && k + |FilenameMarker| + 2 <= |seg| &&
    seg[k..k + |FilenameMarker|] == FilenameMarker && seg[|seg| - 1] == '"'
  }

  /** The match the greedy `.+` settles on: the largest marker position at or below `k`. */
  function LastMarkerAt(seg: string, k: int): (r: Option<int>)
    ensures r.Some? ==> 1 <= r.value <= k && MatchesWithMarkerAt(seg, r.value) &&
                        forall j :: r.value < j <= k ==> !MatchesWithMarkerAt(seg, j)
    ensures r.None? ==> forall j :: j <= k ==> !MatchesWithMarkerAt(seg, j)
    decreases k
  {
    if k < 1 then None
    else if MatchesWithMarkerAt(seg, k) then Some(k)
    else LastMarkerAt(seg, k - 1)
  }

  /** The substitution on one newline-free piece of the line: the capture if the pattern matches, else the piece. */
  function RewriteSegment(seg: string): (r: string)
    ensures |r| <= |seg|
    ensures (seg == [] || seg[|seg| - 1] != '"') ==> r == seg
  {
    match LastMarkerAt(seg, |seg|)
    case Some(k) => seg[k + |FilenameMarker|..|seg| - 1]
    case None => seg
  }

  function RewriteAll(segs: seq<string>): (rewritten: seq<string>)
  {
    if segs == [] then [] else [RewriteSegment(segs[0])] + RewriteAll(segs[1..])
  }

  /**
   * `line.gsub(/^.+filename="(.+)"$/, "\\1")`. In Ruby `.` stops at a newline and `^`, `$`
   * are line anchors, so every newline-separated piece is rewritten on its own.
   */
  function FilenameGsub(line: string): (name: string)
  {
    Join(RewriteAll(Split(line, "\n")), "\n")
  }

  /** On a single line the substitution is the rewrite of that one piece. */
  lemma GsubSingleLine(line: string)
    requires '\n' !in line
    ensures FilenameGsub(line) == RewriteSegment(line)
  {
    SplitWithoutSeparator(line, '\n');
    assert RewriteAll([line]) == [RewriteSegment(line)];
  }

  /** A marker position with no match after it is the one the greedy `.+` settles on. */
  lemma LastMarkerIs(seg: string, n: int, k: int)
    requires k <= n && MatchesWithMarkerAt(seg, k)
    requires forall j :: k < j <= n ==> !MatchesWithMarkerAt(seg, j)
    ensures LastMarkerAt(seg, n) == Some(k)
  {
  }

  /** A captured name without quotes leaves no later place for the marker. */
  lemma NoMarkerInName(prefix: string, name: string)
    requires '"' !in name
    ensures forall j :: |prefix| < j <= |prefix + FilenameMarker + name + "\""| ==>
              !MatchesWithMarkerAt(prefix + FilenameMarker + name + "\"", j)
  {
    var seg := prefix + FilenameMarker + name + "\"";
    var k := |prefix|;
    forall j | k < j <= |seg|
      ensures !MatchesWithMarkerAt(seg, j)
    {
      if j + |FilenameMarker| + 2 <= |seg| {
        var q := j + |FilenameMarker| - 1;
        assert seg[q] == name[q - k - |FilenameMarker|];
        assert seg[q] != FilenameMarker[|FilenameMarker| - 1];
        assert seg[j..j + |FilenameMarker|][|FilenameMarker| - 1] == seg[q];
      }
    }
  }

  /** A line ending in `filename="X"` (X without quotes) yields exactly X. */
  lemma GsubCapturesFilename(prefix: string, name: string)
    requires prefix != [] && name != []
    requires '\n' !in prefix && '\n' !in name && '"' !in name
    ensures FilenameGsub(prefix + FilenameMarker + name + "\"") == name
  {
    var seg := prefix + FilenameMarker + name + "\"";
    var k := |prefix|;
    assert '\n' !in seg by {
      assert forall c :: c in seg ==> c in prefix || c in FilenameMarker || c in name || c == '"';
    }
    GsubSingleLine(seg);
    assert seg[k..k + |FilenameMarker|] == FilenameMarker;
    NoMarkerInName(prefix, name);
    LastMarkerIs(seg, |seg|, k);
    assert seg[k + |FilenameMarker|..|seg| - 1] == name;
  }

  /** A line that does not end in a quote is not matched, so the whole line becomes the name. */
  lemma GsubKeepsUnmatchedLine(line: string)
    requires '\n' !in line
    requires line == [] || line[|line| - 1] != '"'
    ensures FilenameGsub(line) == line
  {
    GsubSingleLine(line);
  }

  /**
   * More generally, a line the pattern matches nowhere is left whole. This covers lines
   * that end in a quote without a `filename="…"` part, such as `name="x"`, and an empty
   * capture such as `filename=""`.
   */
  lemma GsubKeepsNonMatchingLine(line: string)
    requires '\n' !in line
    requires forall k :: !MatchesWithMarkerAt(line, k)
    ensures FilenameGsub(line) == line
  {
    GsubSingleLine(line);
  }

  /**
   * After `filename="` + `name`, a closing quote and a `tail` whose only quotes sit in
   * its last two places, no later marker leaves room for a capture: a later window needs
   * a quote at its last place and `=` just before it, and the only quote in reach closes
   * `name`, whose last character is not `=`.
   */
  lemma NoMarkerAfterValue(prefix: string, name: string, tail: string)
    requires name != [] && '"' !in name && '=' !in name
    requires forall i :: 0 <= i < |tail| - 2 ==> tail[i] != '"'
    ensures forall j :: |prefix| < j <= |prefix + FilenameMarker + name + "\"" + tail| ==>
              !MatchesWithMarkerAt(prefix + FilenameMarker + name + "\"" + tail, j)
  {
    var seg := prefix + FilenameMarker + name + "\"" + tail;
    var k := |prefix|;
    var n := |name|;
    forall j | k < j <= |seg|
      ensures !MatchesWithMarkerAt(seg, j)
    {
      if j + |FilenameMarker| + 2 <= |seg| {
        var q := j + |FilenameMarker| - 1;
        var window := seg[j..j + |FilenameMarker|];
        if q < k + |FilenameMarker| + n {
          assert window[9] == seg[q] == name[q - k - |FilenameMarker|];
        } else if q == k + |FilenameMarker| + n {
          assert window[8] == seg[q - 1] == name[n - 1];
        } else {
          assert window[9] == seg[q] == tail[q - k - |FilenameMarker| - n - 1];
        }
      }
    }
  }

  /**
   * An empty value after an earlier one still matches: the greedy `.+` backtracks to the
   * earlier `filename="`, and the capture runs from there to the final quote. With
   * `Content-Disposition: attachment; ` for `prefix` and `a` for `name`, the line
   * `…filename="a"; filename=""` yields `a"; filename="`.
   */
  lemma GsubBacktracksToEarlierMarker(prefix: string, name: string)
    requires prefix != [] && name != []
    requires '\n' !in prefix && '\n' !in name && '"' !in name && '=' !in name
    ensures FilenameGsub(prefix + FilenameMarker + name + "\"" + "; " + FilenameMarker + "\"")
            == name + "\"" + "; " + FilenameMarker
  {
    var tail := "; " + FilenameMarker + "\"";
    var seg := prefix + FilenameMarker + name + "\"" + tail;
    var k := |prefix|;
    assert '\n' !in FilenameMarker && '\n' !in tail;
    GsubSingleLine(seg);
    assert seg[k..k + |FilenameMarker|] == FilenameMarker;
    NoMarkerAfterValue(prefix, name, tail);
    LastMarkerIs(seg, |seg|, k);
    assert seg[k + |FilenameMarker|..|seg| - 1] == name + "\"" + "; " + FilenameMarker;
    assert seg == prefix + FilenameMarker + name + "\"" + "; " + FilenameMarker + "\"";
  }

  /** The name `downloader.rb` derives from a header string: absent when no line starts with `Content-Disposition`. */
  function TorrentName(headerStr: string): (name: Option<string>)
  {
    var lines := HeaderLines(headerStr);
    match FirstDispositionIndex(lines)
    case None => None
    case Some(i) => Some(FilenameGsub(lines[i]))
  }

  /**
   * Dropping the trailing empty fields of the split does not matter: the name is absent
   * exactly when no field of the raw split starts a `Content-Disposition` line.
   */
  lemma TorrentNameAbsent(headerStr: string)
    ensures TorrentName(headerStr).None? <==>
            forall line :: line in Split(headerStr, "\r\n") ==> !IsDispositionLine(line)
  {
    var parts := Split(headerStr, "\r\n");
    var lines := HeaderLines(headerStr);
    assert !IsDispositionLine("");
    forall line | line in parts && IsDispositionLine(line)
      ensures line in lines
    {
      var k :| 0 <= k < |parts| && parts[k] == line;
      assert k < |lines|;
      assert lines[k] == line;
    }
  }

  /**
   * When the first `Content-Disposition` field of the header is `line`, the name is the
   * substitution applied to that line.
   */
  lemma TorrentNameFromFirstDisposition(headerStr: string, before: seq<string>, line: string, after: seq<string>)
    requires Split(headerStr, "\r\n") == before + [line] + after
    requires forall l :: l in before ==> !IsDispositionLine(l)
    requires IsDispositionLine(line)
    ensures TorrentName(headerStr) == Some(FilenameGsub(line))
  {
    var parts := Split(headerStr, "\r\n");
    var lines := HeaderLines(headerStr);
    var n := |before|;
    assert parts[n] == line;
    assert line != "";
    assert n < |lines|;
    assert lines[n] == line;
    forall j | 0 <= j < n
      ensures !IsDispositionLine(lines[j])
    {
      assert lines[j] == parts[j] == before[j];
    }
  }

  /**
   * The header-line loop: scan the lines in order and stop at the first
   * `Content-Disposition` line, taking the substituted line as the name.
   */
  method FindTorrentName(headerStr: string) returns (torrentName: Option<string>)
    ensures torrentName == TorrentName(headerStr)
    ensures torrentName.None? <==> forall line :: line in HeaderLines(headerStr) ==> !IsDispositionLine(line)
  {
    torrentName := None;
    var lines := HeaderLines(headerStr);
    var i := 0;
    while i < |lines|
      invariant 0 <= i <= |lines|
      invariant torrentName == None
      invariant forall j :: 0 <= j < i ==> !IsDispositionLine(lines[j])
    {
      if IsDispositionLine(lines[i]) {
        torrentName := Some(FilenameGsub(lines[i]));
        break;
      }
      i := i + 1;
    }
  }
}

=== FILE: loved_tracks.dfy ===
/** The first stage: the cutoff, the scan of the loved-tracks feed and the album lookups. */
module LovedTracks {
  import opened Wrappers
  import opened Records
  import opened Sequences

  /** A feed entry is processed unless its timestamp is strictly below the cutoff. */
  predicate Kept(uts: int, cutoff: int)
  {
    !(uts < cutoff)
  }

  /**
   * The cutoff for one run. With no cron interval every entry with a timestamp is
   * processed; otherwise exactly the tracks loved within the last `cronInterval` minutes
   * before `now` are.
   */
  function CutoffTime(cronInterval: int, now: int): (cutoff: int)
    ensures cronInterval == 0 ==> forall uts :: 0 <= uts ==> Kept(uts, cutoff)
    ensures cronInterval != 0 ==> forall uts :: Kept(uts, cutoff) <==> now - uts <= cronInterval * 60
  {
    if cronInterval == 0 then -1 else now - cronInterval * 60
  }

  /**
   * The entries the scan processes: the feed up to, not including, the first entry
   * below the cutoff.
   */
  function LovedSince(feed: seq<LovedTrack>, cutoff: int): (scanned: seq<LovedTrack>)
  {
    if feed == [] || !Kept(feed[0].uts, cutoff) then []
    else [feed[0]] + LovedSince(feed[1..], cutoff)
  }

  /**
   * The scanned entries are a prefix of the feed, all of them kept, and the scan stops
   * at the feed's end or at the first entry below the cutoff.
   */
  lemma {:induction false} LovedSinceIsKeptPrefix(feed: seq<LovedTrack>, cutoff: int)
    ensures LovedSince(feed, cutoff) <= feed
    ensures forall t :: t in LovedSince(feed, cutoff) ==> Kept(t.uts, cutoff)
    ensures |LovedSince(feed, cutoff)| < |feed| ==> !Kept(feed[|LovedSince(feed, cutoff)|].uts, cutoff)
  {
    if feed != [] && Kept(feed[0].uts, cutoff) {
      LovedSinceIsKeptPrefix(feed[1..], cutoff);
      assert feed == [feed[0]] + feed[1..];
    }
  }

  /**
   * `LovedSince` is the only prefix of the feed whose entries are all kept and that
   * ends at the feed's end or at an entry below the cutoff.
   */
  lemma {:induction false} LovedSinceUnique(feed: seq<LovedTrack>, cutoff: int, prefix: seq<LovedTrack>)
    requires prefix <= feed
    requires forall t :: t in prefix ==> Kept(t.uts, cutoff)
    requires |prefix| < |feed| ==> !Kept(feed[|prefix|].uts, cutoff)
    ensures prefix == LovedSince(feed, cutoff)
  {
    if prefix != [] {
      assert prefix[0] in prefix;
      assert forall t :: t in prefix[1..] ==> t in prefix;
      LovedSinceUnique(feed[1..], cutoff, prefix[1..]);
      assert prefix == [prefix[0]] + prefix[1..];
    }
  }

  /**
   * Entries after the first one below the cutoff are never looked at: replacing everything
   * after that entry by anything leaves the scan unchanged.
   */
  lemma {:induction false} LovedSinceIgnoresRest(feed: seq<LovedTrack>, rest: seq<LovedTrack>, cutoff: int)
    requires |LovedSince(feed, cutoff)| < |feed|
    ensures LovedSince(feed[..|LovedSince(feed, cutoff)| + 1] + rest, cutoff) == LovedSince(feed, cutoff)
  {
    var n := |LovedSince(feed, cutoff)|;
    var cut := feed[..n + 1] + rest;
    assert cut[0] == feed[0];
    if Kept(feed[0].uts, cutoff) {
      var tail := feed[1..];
      assert LovedSince(feed, cutoff) == [feed[0]] + LovedSince(tail, cutoff);
      LovedSinceIgnoresRest(tail, rest, cutoff);
      assert cut[1..] == tail[..n] + rest;
    }
  }

  /** Without a cron interval a feed of non-negative timestamps is scanned to its end. */
  lemma NoCutoffScansWholeFeed(feed: seq<LovedTrack>, now: int)
    requires forall t :: t in feed ==> 0 <= t.uts
    ensures LovedSince(feed, CutoffTime(0, now)) == feed
  {
    LovedSinceUnique(feed, CutoffTime(0, now), feed);
  }

  /** The album a track-info reply yields: only a track that carries an album does. */
  function ResolvedAlbum(reply: TrackInfoReply): (album: Option<AlbumId>)
  {
    match reply
    case TrackFound(Some(album)) => Some(album)
    case _ => None
  }

  /** The albums the scanned tracks resolve to, in feed order, with repetitions. */
  function ResolveAlbums(tracks: seq<LovedTrack>, trackInfo: (string, string) -> TrackInfoReply): (albums: seq<AlbumId>)
    ensures |albums| <= |tracks|
  {
    if tracks == [] then []
    else
      var head := match ResolvedAlbum(trackInfo(tracks[0].artist, tracks[0].name))
        case Some(album) => [album]
        case None => [];
      head + ResolveAlbums(tracks[1..], trackInfo)
  }

  /** Each track contributes independently and in order: nothing is reordered or merged. */
  lemma {:induction false} ResolveAlbumsAppend(a: seq<LovedTrack>, b: seq<LovedTrack>, trackInfo: (string, string) -> TrackInfoReply)
    ensures ResolveAlbums(a + b, trackInfo) == ResolveAlbums(a, trackInfo) + ResolveAlbums(b, trackInfo)
  {
    if a == [] {
      assert a + b == b;
    } else {
      assert (a + b)[1..] == a[1..] + b;
      ResolveAlbumsAppend(a[1..], b, trackInfo);
    }
  }

  /** Scanning one more track adds its album, if its info carries one, at the end. */
  lemma ResolveAlbumsSnoc(tracks: seq<LovedTrack>, track: LovedTrack, trackInfo: (string, string) -> TrackInfoReply)
    ensures ResolveAlbums(tracks + [track], trackInfo) ==
            ResolveAlbums(tracks, trackInfo) +
            match ResolvedAlbum(trackInfo(track.artist, track.name))
            case Some(album) => [album]
            case None => []
  {
    ResolveAlbumsAppend(tracks, [track], trackInfo);
    assert [track][1..] == [];
  }

  /** An album is produced exactly when some scanned track's info carries that album. */
  lemma {:induction false} ResolveAlbumsMembership(tracks: seq<LovedTrack>, trackInfo: (string, string) -> TrackInfoReply, album: AlbumId)
    ensures album in ResolveAlbums(tracks, trackInfo) <==>
            exists i :: 0 <= i < |tracks| && ResolvedAlbum(trackInfo(tracks[i].artist, tracks[i].name)) == Some(album)
  {
    if tracks != [] {
      ResolveAlbumsMembership(tracks[1..], trackInfo, album);
      if exists i :: 0 <= i < |tracks| && ResolvedAlbum(trackInfo(tracks[i].artist, tracks[i].name)) == Some(album) {
        var i :| 0 <= i < |tracks| && ResolvedAlbum(trackInfo(tracks[i].artist, tracks[i].name)) == Some(album);
        if i > 0 {
          assert tracks[1..][i - 1] == tracks[i];
        }
      }
      if album in ResolveAlbums(tracks[1..], trackInfo) {
        var i :| 0 <= i < |tracks[1..]| && ResolvedAlbum(trackInfo(tracks[1..][i].artist, tracks[1..][i].name)) == Some(album);
        assert tracks[i + 1] == tracks[1..][i];
      }
    }
  }

  /** The track-info lookups for the scanned tracks, in order. */
  function TrackInfoRequests(tracks: seq<LovedTrack>): (requests: seq<Request>)
    ensures forall r :: r in requests ==> r.TrackInfoRequest?
  {
    if tracks == [] then []
    else
      var last := tracks[|tracks| - 1];
      TrackInfoRequests(tracks[..|tracks| - 1]) + [TrackInfoRequest(last.artist, last.name)]
  }

  /** A kept entry moves from the unscanned rest of the feed onto the scanned prefix. */
  lemma ScanStep(feed: seq<LovedTrack>, i: nat, cutoff: int)
    requires i < |feed| && Kept(feed[i].uts, cutoff)
    ensures feed[..i] + LovedSince(feed[i..], cutoff) == feed[..i + 1] + LovedSince(feed[i + 1..], cutoff)
  {
    assert feed[i..][1..] == feed[i + 1..];
    var rest := LovedSince(feed[i + 1..], cutoff);
    assert LovedSince(feed[i..], cutoff) == [feed[i]] + rest;
    assert feed[..i + 1] == feed[..i] + [feed[i]];
    assert feed[..i] + ([feed[i]] + rest) == (feed[..i] + [feed[i]]) + rest;
  }

  /** Looking up one more entry adds its album, if it has one, at the end. */
  lemma ResolveStep(feed: seq<LovedTrack>, i: nat, trackInfo: (string, string) -> TrackInfoReply)
    requires i < |feed|
    ensures ResolveAlbums(feed[..i + 1], trackInfo) ==
            ResolveAlbums(feed[..i], trackInfo) +
            match ResolvedAlbum(trackInfo(feed[i].artist, feed[i].name))
            case Some(album) => [album]
            case None => []
  {
    assert feed[..i + 1] == feed[..i] + [feed[i]];
    ResolveAlbumsSnoc(feed[..i], feed[i], trackInfo);
  }

  /** Looking up one more entry logs one more track-info request. */
  lemma LookupStep(feed: seq<LovedTrack>, i: nat)
    requires i < |feed|
    ensures TrackInfoRequests(feed[..i + 1]) == TrackInfoRequests(feed[..i]) + [TrackInfoRequest(feed[i].artist, feed[i].name)]
  {
    assert feed[..i + 1][..i] == feed[..i];
  }

  /** The scan ends at the feed's end or at an entry below the cutoff: nothing more is kept. */
  lemma ScanStop(feed: seq<LovedTrack>, i: nat, cutoff: int)
    requires i <= |feed| && (i == |feed| || !Kept(feed[i].uts, cutoff))
    ensures feed[..i] + LovedSince(feed[i..], cutoff) == feed[..i]
  {
    assert feed[..i] + [] == feed[..i];
  }

  /**
   * The loved-track loop: walk the feed, stop at the first entry below the cutoff, look
   * up every entry before it and push a fresh album hash for each one that has an album.
   */
  method ScanLovedTracks(feed: seq<LovedTrack>, cutoff: int, trackInfo: (string, string) -> TrackInfoReply)
    returns (albumsToGet: seq<AlbumHash>, lookups: seq<Request>)
    ensures Ids(albumsToGet) == ResolveAlbums(LovedSince(feed, cutoff), trackInfo)
    ensures lookups == TrackInfoRequests(LovedSince(feed, cutoff))
    ensures fresh(set a | a in albumsToGet)
    ensures forall k :: 0 <= k < |albumsToGet| ==> albumsToGet[k].url == None
    ensures Distinct(albumsToGet)
  {
    albumsToGet, lookups := [], [];
    var i := 0;
    while i < |feed|
      invariant 0 <= i <= |feed|
      invariant LovedSince(feed, cutoff) == feed[..i] + LovedSince(feed[i..], cutoff)
      invariant Ids(albumsToGet) == ResolveAlbums(feed[..i], trackInfo)
      invariant lookups == TrackInfoRequests(feed[..i])
      invariant fresh(set a | a in albumsToGet)
      invariant forall k :: 0 <= k < |albumsToGet| ==> albumsToGet[k].url == None
      invariant Distinct(albumsToGet)
    {
      var track := feed[i];
      if track.uts < cutoff {
        break;
      }
      ScanStep(feed, i, cutoff);
      ResolveStep(feed, i, trackInfo);
      LookupStep(feed, i);
      lookups := lookups + [TrackInfoRequest(track.artist, track.name)];
      var resolved := ResolvedAlbum(trackInfo(track.artist, track.name));
      if resolved.Some? {
        var albumHash := new AlbumHash(resolved.value.artist, resolved.value.title);
        DistinctSnoc(albumsToGet, albumHash);
        IdsSnoc(albumsToGet, albumHash);
        albumsToGet := albumsToGet + [albumHash];
      }
      i := i + 1;
    }
    ScanStop(feed, i, cutoff);
  }
}

=== FILE: records.dfy ===
/** The values and objects that flow between the stages of downloader.rb. */
module Records {
  import opened Wrappers

  /** One entry of the decoded loved-tracks feed: `artist.name`, `name` and `date.uts`. */
  datatype LovedTrack = LovedTrack(artist: string, name: string, uts: int)

  /** The `(artist, title)` pair that identifies an album. */
  datatype AlbumId = AlbumId(artist: string, title: string)

  /**
   * The decoded track-info reply: no `track` element at all, or a track whose `album`
   * element may be missing.
   */
  datatype TrackInfoReply = NoTrack | TrackFound(album: Option<AlbumId>)

  /** A link of the tracker's results page: its visible text and its `href`. */
  datatype Link = Link(text: string, href: string)

  /** The fields of the tracker's `filter` search form. */
  datatype Query = Query(artistName: string, groupName: string, encoding: string, orderBy: string)

  /** The outcome of fetching a torrent: a failed transfer, or success with the raw header string. */
  datatype FetchReply = FetchFailed | Fetched(headerStr: string)

  /** Every remote call the run makes, in the order it makes them. */
  datatype Request =
    | LovedTracksRequest(user: string)
    | TrackInfoRequest(artist: string, track: string)
    | TrackerLogin
    | SearchRequest(query: Query)
    | ClientLogin
    | TorrentRequest(url: string)
    | UploadRequest(fileName: string)

  /**
   * The album hash built for each resolved loved track. The tracker stage stores the
   * torrent URL into it in place, so the same object sits in `albums_to_get`,
   * `torrents_to_get` and `successful_additions`.
   */
  class AlbumHash {
    const artist: string
    const title: string
    var url: Option<string>

    constructor (artist: string, title: string)
      ensures this.artist == artist && this.title == title && url == None
    {
      this.artist := artist;
      this.title := title;
      url := None;
    }
  }

  /** The `(artist, title)` of each album hash, in order. */
  function Ids(albums: seq<AlbumHash>): (ids: seq<AlbumId>)
    ensures |ids| == |albums|
  {
    if albums == [] then []
    else Ids(albums[..|albums| - 1]) + [AlbumId(albums[|albums| - 1].artist, albums[|albums| - 1].title)]
  }

  /** Pushing an album hash pushes its `(artist, title)`. */
  lemma IdsSnoc(albums: seq<AlbumHash>, album: AlbumHash)
    ensures Ids(albums + [album]) == Ids(albums) + [AlbumId(album.artist, album.title)]
  {
    assert (albums + [album])[..|albums|] == albums;
  }
}

=== FILE: sequences.dfy ===
/** Facts about sequences shared by the three stages of the pipeline. */
module Sequences {

  /** `a` is obtained from `b` by deleting elements, keeping the rest in their order. */
  ghost predicate IsSubsequence<T>(a: seq<T>, b: seq<T>)
    decreases |b|
  {
    a == [] || (b != [] && ((a[0] == b[0] && IsSubsequence(a[1..], b[1..])) || IsSubsequence(a, b[1..])))
  }

  lemma {:induction false} SubsequenceTransitive<T>(a: seq<T>, b: seq<T>, c: seq<T>)
    requires IsSubsequence(a, b) && IsSubsequence(b, c)
    ensures IsSubsequence(a, c)
    decreases |c|
  {
    if a != [] {
      if IsSubsequence(b, c[1..]) {
        SubsequenceTransitive(a, b, c[1..]);
      } else if a[0] == b[0] && IsSubsequence(a[1..], b[1..]) {
        SubsequenceTransitive(a[1..], b[1..], c[1..]);
      } else {
        SubsequenceTransitive(a, b[1..], c[1..]);
      }
    }
  }

  /** No element occurs twice. */
  predicate Distinct<T(==)>(s: seq<T>)
  {
    forall i, j :: 0 <= i < j < |s| ==> s[i] != s[j]
  }

  lemma DistinctSnoc<T>(s: seq<T>, x: T)
    requires Distinct(s) && x !in s
    ensures Distinct(s + [x])
  {
  }

  /** The number of occurrences of `x` in `s`. */
  function Count<T(==)>(s: seq<T>, x: T): (n: nat)
    ensures n <= |s|
    ensures n == 0 <==> x !in s
  {
    if s == [] then 0 else (if s[0] == x then 1 else 0) + Count(s[1..], x)
  }

  lemma {:induction false} CountAppend<T>(a: seq<T>, b: seq<T>, x: T)
    ensures Count(a + b, x) == Count(a, x) + Count(b, x)
  {
    if a == [] {
      assert a + b == b;
    } else {
      assert (a + b)[1..] == a[1..] + b;
      CountAppend(a[1..], b, x);
    }
  }
}

=== FILE: text.dfy ===
/** The pieces of Ruby's string and regular-expression semantics the downloader relies on. */
module Text {

  /**
   * Ruby's `/^p/.match(s)` for a literal `p`: in Ruby `^` anchors at the start of the
   * string and also right after every newline, so `p` may start any line of `s`.
   */
  predicate MatchesAtLineStart(s: string, p: string)
  {
    p <= s || exists i :: 0 <= i < |s| && s[i] == '\n' && p <= s[i + 1..]
  }

  /** `s` cut at every occurrence of `sep`, scanning left to right; keeps every field, even empty ones. */
  function Split(s: string, sep: string): (parts: seq<string>)
    requires sep != []
    ensures parts != []
    decreases |s|
  {
    if sep <= s then [""] + Split(s[|sep|..], sep)
    else if s == [] then [""]
    else
      var rest := Split(s[1..], sep);
      [[s[0]] + rest[0]] + rest[1..]
  }

  /** The fields glued back together with `sep` between neighbours. */
  function Join(parts: seq<string>, sep: string): (joined: string)
  {
    if parts == [] then ""
    else if |parts| == 1 then parts[0]
    else parts[0] + sep + Join(parts[1..], sep)
  }

  /** Gluing a prefix onto the first field prefixes the joined string. */
  lemma JoinExtendFirst(x: string, rest: seq<string>, sep: string)
    requires rest != []
    ensures Join([x + rest[0]] + rest[1..], sep) == x + Join(rest, sep)
  {
    var parts := [x + rest[0]] + rest[1..];
    if |rest| > 1 {
      assert parts[1..] == rest[1..];
    }
  }

  /** Splitting loses nothing: joining the fields with the same separator gives back the string. */
  lemma {:induction false} JoinSplit(s: string, sep: string)
    requires sep != []
    ensures Join(Split(s, sep), sep) == s
    decreases |s|
  {
    if sep <= s {
      JoinSplit(s[|sep|..], sep);
      JoinSplitAtSeparator(s, sep);
    } else if s != [] {
      JoinSplit(s[1..], sep);
      JoinSplitAtChar(s, sep);
    }
  }

  lemma JoinSplitAtSeparator(s: string, sep: string)
    requires sep != [] && sep <= s
    requires Join(Split(s[|sep|..], sep), sep) == s[|sep|..]
    ensures Join(Split(s, sep), sep) == s
  {
    var rest := Split(s[|sep|..], sep);
    assert Split(s, sep) == [""] + rest;
    JoinEmptyFirst(rest, sep);
    assert s == sep + s[|sep|..];
  }

  lemma JoinEmptyFirst(rest: seq<string>, sep: string)
    requires rest != []
    ensures Join([""] + rest, sep) == sep + Join(rest, sep)
  {
    var parts := [""] + rest;
    assert parts[1..] == rest;
  }

  lemma JoinSplitAtChar(s: string, sep: string)
    requires sep != [] && !(sep <= s) && s != []
    requires Join(Split(s[1..], sep), sep) == s[1..]
    ensures Join(Split(s, sep), sep) == s
  {
    var rest := Split(s[1..], sep);
    assert Split(s, sep) == [[s[0]] + rest[0]] + rest[1..];
    JoinExtendFirst([s[0]], rest, sep);
    assert s == [s[0]] + s[1..];
  }

  /** `sep` occurs in `f` starting at index `i`. */
  predicate OccursAt(f: string, sep: string, i: int)
  {
    0 <= i && i + |sep| <= |f| && f[i..i + |sep|] == sep
  }

  /** `sep` occurs nowhere in `f`. */
  predicate SeparatorFree(f: string, sep: string)
  {
    forall i :: 0 <= i <= |f| ==> !OccursAt(f, sep, i)
  }

  /** The first field is where the scan started: a prefix of the string. */
  lemma {:induction false} SplitFirstIsPrefix(s: string, sep: string)
    requires sep != []
    ensures Split(s, sep)[0] <= s
    decreases |s|
  {
    if !(sep <= s) && s != [] {
      SplitFirstIsPrefix(s[1..], sep);
      assert s == [s[0]] + s[1..];
    }
  }

  /** A character that does not start the separator, followed by a separator-free prefix of the rest, is separator-free. */
  lemma ExtendedFieldFree(s: string, sep: string, field: string)
    requires sep != [] && s != [] && !(sep <= s)
    requires field <= s[1..] && SeparatorFree(field, sep)
    ensures SeparatorFree([s[0]] + field, sep)
  {
    var first := [s[0]] + field;
    assert first <= s by {
      assert s == [s[0]] + s[1..];
    }
    forall i | OccursAt(first, sep, i)
      ensures false
    {
      if i > 0 {
        assert first[i..i + |sep|] == field[i - 1..i - 1 + |sep|];
        assert OccursAt(field, sep, i - 1);
      }
    }
  }

  /**
   * Splitting cuts at every occurrence: no field contains the separator, so each field
   * of a header split on `\r\n` is a single header line.
   */
  lemma {:induction false} SplitFieldsFree(s: string, sep: string)
    requires sep != []
    ensures forall f :: f in Split(s, sep) ==> SeparatorFree(f, sep)
    decreases |s|
  {
    if sep <= s {
      SplitFieldsFree(s[|sep|..], sep);
      assert SeparatorFree("", sep);
    } else if s == [] {
      assert SeparatorFree("", sep);
    } else {
      var rest := Split(s[1..], sep);
      SplitFieldsFree(s[1..], sep);
      SplitFirstIsPrefix(s[1..], sep);
      assert rest[0] in rest;
      ExtendedFieldFree(s, sep, rest[0]);
      assert Split(s, sep) == [[s[0]] + rest[0]] + rest[1..];
      forall f | f in rest[1..]
        ensures f in rest
      {
      }
    }
  }

  /** A string without the one-character separator is a single field. */
  lemma {:induction false} SplitWithoutSeparator(s: string, c: char)
    requires c !in s
    ensures Split(s, [c]) == [s]
    decreases |s|
  {
    if s != [] {
      assert s[0] != c;
      assert !([c] <= s);
      SplitWithoutSeparator(s[1..], c);
      assert [s[0]] + s[1..] == s;
    }
  }

  /** Ruby's `split` without a limit drops the empty fields at the end of the result. */
  function DropTrailingEmpty(parts: seq<string>): (kept: seq<string>)
    ensures kept <= parts
    ensures forall k :: |kept| <= k < |parts| ==> parts[k] == ""
    ensures kept != [] ==> kept[|kept| - 1] != ""
    decreases |parts|
  {
    if parts == [] || parts[|parts| - 1] != "" then parts
    else DropTrailingEmpty(parts[..|parts| - 1])
  }

  /** Ruby's `s.split(/sep/)` for a literal separator. */
  function RubySplit(s: string, sep: string): (fields: seq<string>)
    requires sep != []
  {
    DropTrailingEmpty(Split(s, sep))
  }
}

=== FILE: tracker.dfy ===
/** The second stage: search the tracker for each album and keep the most snatched download link. */
module Tracker {
  import opened Wrappers
  import opened Sequences
  import opened Text
  import opened Records

  /** The site root that the chosen relative `href` is appended to. */
  const SiteRoot: string := "http://what.cd/"

  /** The literal start of a download link's `href` (the regex `^torrents\.php\?action=download`). */
  const DownloadAction: string := "torrents.php?action=download"

  /** A results-page link the stage accepts: text `DL` and an `href` of the download action. */
  predicate IsDownloadLink(link: Link)
  {
    link.text == "DL" && MatchesAtLineStart(link.href, DownloadAction)
  }

  /** `links_with(:text => 'DL', :href => ...)`: the download links of a results page, in page order. */
  function DownloadLinks(links: seq<Link>): (dl: seq<Link>)
    ensures IsSubsequence(dl, links)
    ensures forall l :: l in dl <==> l in links && IsDownloadLink(l)
  {
    if links == [] then []
    else if IsDownloadLink(links[0]) then [links[0]] + DownloadLinks(links[1..])
    else DownloadLinks(links[1..])
  }

  /** The first download link of the page heads the filtered list. */
  lemma {:induction false} DownloadLinksHead(links: seq<Link>, i: nat)
    requires i < |links| && IsDownloadLink(links[i])
    requires forall j :: 0 <= j < i ==> !IsDownloadLink(links[j])
    ensures DownloadLinks(links) != [] && DownloadLinks(links)[0] == links[i]
  {
    if i > 0 {
      DownloadLinksHead(links[1..], i - 1);
    }
  }

  /** The head of the filtered list is the page's first download link. */
  lemma {:induction false} DownloadLinksFirst(links: seq<Link>)
    requires DownloadLinks(links) != []
    ensures exists i :: 0 <= i < |links| && IsDownloadLink(links[i]) && links[i] == DownloadLinks(links)[0] &&
                        forall j :: 0 <= j < i ==> !IsDownloadLink(links[j])
  {
    if !IsDownloadLink(links[0]) {
      DownloadLinksFirst(links[1..]);
      var i :| 0 <= i < |links[1..]| && IsDownloadLink(links[1..][i]) && links[1..][i] == DownloadLinks(links[1..])[0] &&
               forall j :: 0 <= j < i ==> !IsDownloadLink(links[1..][j]);
      assert links[i + 1] == links[1..][i];
      forall j | 0 <= j < i + 1
        ensures !IsDownloadLink(links[j])
      {
        if j > 0 {
          assert links[j] == links[1..][j - 1];
        }
      }
    }
  }

  /** The search form for one album: artist, album title, configured encoding, ordered by snatches. */
  function QueryFor(album: AlbumHash, encoding: string): (query: Query)
  {
    Query(album.artist, album.title, encoding, "snatched")
  }

  /** The torrent URL a results page yields: the site root followed by the first download link's `href`. */
  function TorrentUrlFrom(links: seq<Link>): (url: Option<string>)
  {
    var dl := DownloadLinks(links);
    if dl == [] then None else Some(SiteRoot + dl[0].href)
  }

  /**
   * The chosen URL is the site root plus the `href` of the first download link on the
   * results page, and there is none exactly when the page has no download link.
   */
  lemma TorrentUrlIsFirstMatch(links: seq<Link>, url: string)
    ensures TorrentUrlFrom(links).None? <==> forall j :: 0 <= j < |links| ==> !IsDownloadLink(links[j])
    ensures TorrentUrlFrom(links) == Some(url) <==>
            exists i :: 0 <= i < |links| && IsDownloadLink(links[i]) && url == SiteRoot + links[i].href &&
                        forall j :: 0 <= j < i ==> !IsDownloadLink(links[j])
  {
    if DownloadLinks(links) != [] {
      DownloadLinksFirst(links);
      assert DownloadLinks(links)[0] in DownloadLinks(links);
    }
    if exists i :: 0 <= i < |links| && IsDownloadLink(links[i]) && url == SiteRoot + links[i].href &&
                   forall j :: 0 <= j < i ==> !IsDownloadLink(links[j]) {
      var i :| 0 <= i < |links| && IsDownloadLink(links[i]) && url == SiteRoot + links[i].href &&
               forall j :: 0 <= j < i ==> !IsDownloadLink(links[j]);
      DownloadLinksHead(links, i);
    }
  }

  /** The URL chosen for an album, if its search finds a download link. */
  function ChosenUrl(album: AlbumHash, encoding: string, search: Query -> seq<Link>): (url: Option<string>)
  {
    TorrentUrlFrom(search(QueryFor(album, encoding)))
  }

  /** The albums that get a torrent, in their original order. */
  function Selected(albums: seq<AlbumHash>, encoding: string, search: Query -> seq<Link>): (torrents: seq<AlbumHash>)
    ensures IsSubsequence(torrents, albums)
  {
    if albums == [] then []
    else if ChosenUrl(albums[0], encoding, search).Some? then [albums[0]] + Selected(albums[1..], encoding, search)
    else Selected(albums[1..], encoding, search)
  }

  /** An album gets a torrent exactly when its search yields a URL; every torrent is one of the albums. */
  lemma {:induction false} SelectedMembership(albums: seq<AlbumHash>, encoding: string, search: Query -> seq<Link>, album: AlbumHash)
    ensures album in Selected(albums, encoding, search) <==> album in albums && ChosenUrl(album, encoding, search).Some?
  {
    if albums != [] {
      SelectedMembership(albums[1..], encoding, search, album);
      assert album in albums <==> album == albums[0] || album in albums[1..] by {
        assert albums == [albums[0]] + albums[1..];
      }
    }
  }

  lemma {:induction false} SelectedAppend(a: seq<AlbumHash>, b: seq<AlbumHash>, encoding: string, search: Query -> seq<Link>)
    ensures Selected(a + b, encoding, search) == Selected(a, encoding, search) + Selected(b, encoding, search)
  {
    if a == [] {
      assert a + b == b;
    } else {
      assert (a + b)[1..] == a[1..] + b;
      SelectedAppend(a[1..], b, encoding, search);
    }
  }

  /** One search per album, in order. */
  function SearchRequests(albums: seq<AlbumHash>, encoding: string): (searches: seq<Request>)
    ensures forall r :: r in searches ==> r.SearchRequest?
  {
    if albums == [] then []
    else SearchRequests(albums[..|albums| - 1], encoding) + [SearchRequest(QueryFor(albums[|albums| - 1], encoding))]
  }

  lemma SearchRequestsSnoc(albums: seq<AlbumHash>, album: AlbumHash, encoding: string)
    ensures SearchRequests(albums + [album], encoding) == SearchRequests(albums, encoding) + [SearchRequest(QueryFor(album, encoding))]
  {
    assert (albums + [album])[..|albums|] == albums;
  }

  /** Processing one more album appends it exactly when its search yields a URL. */
  lemma SelectedSnoc(albums: seq<AlbumHash>, album: AlbumHash, encoding: string, search: Query -> seq<Link>)
    ensures Selected(albums + [album], encoding, search) ==
            Selected(albums, encoding, search) + if ChosenUrl(album, encoding, search).Some? then [album] else []
  {
    SelectedAppend(albums, [album], encoding, search);
  }

  /**
   * One iteration of the search loop: search for the album and, when the results hold a
   * download link, store the first one's URL into the album hash.
   */
  method SearchAlbum(album: AlbumHash, encoding: string, search: Query -> seq<Link>) returns (found: bool, query: Query)
    modifies album
    ensures query == QueryFor(album, encoding)
    ensures found == ChosenUrl(album, encoding, search).Some?
    ensures album.url == if found then ChosenUrl(album, encoding, search) else old(album.url)
  {
    query := QueryFor(album, encoding);
    var dlLinks := DownloadLinks(search(query));
    found := dlLinks != [];
    if found {
      album.url := Some(SiteRoot + dlLinks[0].href);
    }
  }

  /**
   * The per-album search loop: for each album hash, search and, when a download link is
   * found, push the album (whose hash now carries the URL) onto `torrents_to_get`.
   */
  method SelectTorrents(albumsToGet: seq<AlbumHash>, encoding: string, search: Query -> seq<Link>)
    returns (torrentsToGet: seq<AlbumHash>, searches: seq<Request>)
    requires Distinct(albumsToGet)
    modifies albumsToGet
    ensures torrentsToGet == Selected(albumsToGet, encoding, search)
    ensures searches == SearchRequests(albumsToGet, encoding)
    ensures forall k :: 0 <= k < |albumsToGet| ==>
              albumsToGet[k].url == if ChosenUrl(albumsToGet[k], encoding, search).Some? then ChosenUrl(albumsToGet[k], encoding, search) else old(albumsToGet[k].url)
  {
    torrentsToGet, searches := [], [];
    for i := 0 to |albumsToGet|
      invariant torrentsToGet == Selected(albumsToGet[..i], encoding, search)
      invariant searches == SearchRequests(albumsToGet[..i], encoding)
      invariant forall k :: 0 <= k < i ==>
              albumsToGet[k].url == if ChosenUrl(albumsToGet[k], encoding, search).Some? then ChosenUrl(albumsToGet[k], encoding, search) else old(albumsToGet[k].url)
      invariant forall k :: i <= k < |albumsToGet| ==> albumsToGet[k].url == old(albumsToGet[k].url)
    {
      var album := albumsToGet[i];
      var found, query := SearchAlbum(album, encoding, search);
      searches := searches + [SearchRequest(query)];
      if found {
        torrentsToGet := torrentsToGet + [album];
      }
      assert albumsToGet[..i + 1] == albumsToGet[..i] + [album];
      SearchRequestsSnoc(albumsToGet[..i], album, encoding);
      SelectedSnoc(albumsToGet[..i], album, encoding, search);
    }
    assert albumsToGet[..|albumsToGet|] == albumsToGet;
  }
}

=== FILE: wrappers.dfy ===
/** The optional value used for every "may be absent" reply and result of the downloader. */
module Wrappers {
  datatype Option<+T> = None | Some(value: T)
}
